=== FILE: README.md ===
# Leaflet heat layer: grid aggregation and redraw scheduling

This project models the core of `L.HeatMap` as a Dafny development, in two parts.

The first part is the redraw pass (`_redraw`). It runs in three steps:

- It bins every projected, weighted point into a square cell of side `r / 2`. The grid is shifted by the pane position's remainder modulo the cell side, and both indices are padded.
- It merges the points of one cell by weighted centroid. The cell keeps the position of the point that created it (its *seed*). It also tracks a pass-wide maximum weight that starts at 1.
- It sweeps the nested JavaScript arrays row by row, from index 0 up to each array's `length`. It emits one rounded sample for every cell with non-negative indices whose seed lies in the viewport grown by `r`.

The second part is the small state machine around the pass:

- `redraw` requests an animation frame under a guard and coalesces repeated requests.
- The frame callback runs the pass and clears the pending flag. This holds when weight extraction succeeds; see "## Left out" for the lists on which it throws.
- `_reset` moves and resizes the canvas, then redraws at once.
- `setLatLngs`, `addLatLng` and `setOptions` change the state and then call `redraw`.

Modules, one file each:

- `JsNum` (`jsnum.dfy`): the JavaScript number operations the pass uses, over exact reals. These are the truncating `%`, `Math.round` (halves round up), `Math.min` and `Math.max`.
- `Geometry` (`geometry.dfy`): pixel points, the map size, and `L.Bounds` with its inclusive `contains`.
- `Grid` (`grid.dfy`): binning (`CellOf`, `Bins`), the merge loop (`Merge`, `Place`, `Gather`, `Accumulate`), and the `length`s of the sparse arrays the loop leaves behind (`Layout`).
  - It also has an independent per-cell reference: `PointsIn` lists the points of one cell, and `Fold` merges them. A point's weight and its weighted moments are summed by `Weight`, `MomentX` and `MomentY`.
  - The loop is proved equal to this reference cell by cell (`CellIsFold`).
- `Sweep` (`sweep.dfy`): the nested emission loops, modelled over the array `length`s, and the sample each cell yields.
- `Aggregate` (`aggregate.dfy`): one whole pass.
  - It holds the pass as written (`RedrawPass`, padding 2), which the layer runs, and the corrected pass (`PaddedPass`, padding 3; see Findings).
- `Layer` (`layer.dfy`): the layer state and its operations. Each operation returns the next state and the ordered list of calls it makes on the frame scheduler, the canvas and the painter.

Three behaviours of the code to note:

- `_reset` redraws synchronously. It does not schedule a frame.
- Every point is accumulated, whether or not it is on screen. Only emission filters by the visibility box, and it tests the cell's seed, not its centroid. So off-screen cells still raise the maximum.
- The `+2` index padding does not, in fact, prevent negative indices near the top and left edges (see Findings).

Inputs from outside the layer are parameters of the model:

- the map's size, pane position, animation flag and top-left corner (a `View`);
- the projection of a geographic point to a container pixel (a function `proj`);
- the painter's radius `_r` and its stored canvas size (a `Painter`), and the `_r` its `radius` call sets (the `r'` parameter of `SetOptions`);
- each point's weight (a field of `HeatPoint`).

## Model

| member | source | states |
|---|---|---|
| JsNum.Rem | src/HeatMap.js:155-156 | JavaScript `%` on the pane position: the remainder has the sign of the dividend and is smaller than the cell side, and what it removes is a whole multiple of the side |
| JsNum.Round | src/HeatMap.js:228-229 | `Math.round` lands within half a pixel of its argument, halves rounding up |
| JsNum.Min | src/HeatMap.js:230 | `Math.min` of the cell weight and the maximum is one of the two and no larger than either |
| JsNum.Max | src/HeatMap.js:143-146 | the larger coordinate `L.Bounds` takes for the upper corner is one of the two and no smaller than either |
| Geometry.BoundsOf | src/HeatMap.js:143-146 | the box built from two corners holds both, and nothing outside their span on either axis |
| Geometry.HaloBounds | src/HeatMap.js:143-146 | with a non-negative `r` the visibility box runs from `(-r, -r)` to the map size plus `r` |
| Geometry.HaloBoundsContains | src/HeatMap.js:143-146 | a point is in the visibility box exactly when it is within `r` of the viewport on both axes, edges included |
| Grid.CellOf | src/HeatMap.js:176-177 | on each axis, a position at or past the shifted origin gets an index of at least the padding, and one before it gets less |
| Grid.CellContains | src/HeatMap.js:176-177 | the key computed by floor division names the one cell-side square, shifted by the offset and the padding, that contains the point |
| Grid.Bins | src/HeatMap.js:162-177 | every point gets exactly one key, `(floor((y-offY)/c)+pad, floor((x-offX)/c)+pad)`, in list order |
| Grid.Merge | src/HeatMap.js:196-198 | one merge keeps the seed, adds the weight, and moves the centroid so that centroid times weight is the old moment plus the new point's |
| Grid.Place | src/HeatMap.js:189-202 | one loop iteration adds exactly key `k`, leaves every other cell unchanged, strictly raises `k`'s weight when the cell exists, and never lowers the maximum |
| Grid.Gather | src/HeatMap.js:159-218 | the whole point loop leaves every cell with positive weight and the maximum at least 1 |
| Grid.Accumulate | src/HeatMap.js:162-202 | the point loop over one frame: each point binned (`Grid.Bins`) and merged in list order (`Grid.Gather`); every cell has positive weight, the maximum is at least 1, and there are no more cells than points; `Grid.CellIsFold` gives each cell's contents |
| Grid.Grow | src/HeatMap.js:189-193 | assigning `grid[y][x]` makes the array lengths reach `(y, x)` and never shortens them; a negative index does not grow a length |
| Grid.LayoutOf | src/HeatMap.js:162-199 | after the loop the array lengths reach every key a point was binned to |
| Grid.Fold | src/HeatMap.js:192-198 | merging the points of one cell in list order yields the first point's position as seed, the sum of the weights, and the weighted mean position |
| Grid.CellIsFold | src/HeatMap.js:189-199 | the loop's grid has a cell for `k` exactly when some point was binned to `k`, and that cell equals the reference merge of exactly those points |
| Grid.PointsInAreTheCellsPoints | src/HeatMap.js:189-190 | the points of cell `k` are exactly the points whose key is `k` |
| Grid.WeightIsSum | src/HeatMap.js:198 | a cell's weight is the sum of the weights of its points |
| Grid.CentroidIsWeightedMean | src/HeatMap.js:196-197 | a cell's position times its weight equals the weighted sum of its points' positions |
| Grid.CentroidWithinPoints | src/HeatMap.js:196-197 | a cell's centroid lies in every box that holds all of its points, so between their least and greatest coordinates |
| Grid.SeedIsFirstPoint | src/HeatMap.js:192-194 | a cell's seed is the position of the first point binned to it; later merges never move it |
| Grid.SeedIsAPointOfTheCell | src/HeatMap.js:193-194 | every cell's seed is the position of one of its own points |
| Grid.CellsAreThePointsCells | src/HeatMap.js:189-193 | the grid's keys are exactly the keys of the points: one cell per distinct key |
| Grid.DistinctCellsBound | src/HeatMap.js:189-193 | there are no more distinct keys than points |
| Grid.MaxIsHeaviestCell | src/HeatMap.js:159-202 | the maximum covers every cell, on screen or not, and is 1 or the weight of some cell |
| Grid.LayoutCoversCells | src/HeatMap.js:189-224 | the nested loops' bounds reach every cell with non-negative indices |
| Grid.CellAtCommonPosition | src/HeatMap.js:193-197 | a cell whose points all sit at one position is centred exactly there |
| Grid.SeedInItsCell | src/HeatMap.js:176-194 | a cell's seed is binned to that cell's own key |
| Grid.CoincidentPointsOneKey | src/HeatMap.js:176-193 | points at one position make a grid with exactly one key |
| Grid.CoincidentPointsOneCell | src/HeatMap.js:189-199 | points at one position make exactly one cell, seeded and centred there, carrying the sum of their weights |
| Sweep.SweepRow | src/HeatMap.js:224-233 | the inner loop emits exactly the cells of its row, below the row's length, whose seed is in the box, in column order |
| Sweep.SweepRows | src/HeatMap.js:222-235 | the outer loop emits exactly the reachable cells with non-negative indices whose seed is in the box, in row-major order |
| Sweep.Swept | src/HeatMap.js:222-235 | when the array lengths reach every cell, the sweep emits exactly the cells with non-negative indices whose seed is in the box, in row-major order |
| Sweep.SweptAtMostCells | src/HeatMap.js:222-235 | the sweep emits each cell at most once, so no more samples than cells |
| Sweep.EmittedOnce | src/HeatMap.js:222-235 | a sweep that emits only one cell emits it exactly once |
| Sweep.SampleOf | src/HeatMap.js:227-231 | a sample is within half a pixel of its cell's centroid on each axis, and its weight is the cell weight or the maximum, whichever is smaller |
| Sweep.Samples | src/HeatMap.js:226-231 | the data list has one sample per emitted cell, in sweep order |
| Aggregate.GridFrame | src/HeatMap.js:152-156 | the cell side is `r/2`, and each offset lies strictly within one side of zero, with the pane position's sign |
| Aggregate.Visible | src/HeatMap.js:222-235 | a pass emits exactly the cells with non-negative indices whose seed is in the box, in row-major order, and never more than there are points |
| Aggregate.RunPass | src/HeatMap.js:159-239 | the maximum handed to the painter is the accumulated one, at least 1, and the data list holds, in sweep order, the sample of each emitted cell, no more than there are points |
| Aggregate.RedrawPass | src/HeatMap.js:137-239 | the pass as the code runs it: grid lines from `r` and the pane with padding 2, the visibility box grown by `r`; the data list is the sample of each emitted cell of that grid, in sweep order, and the maximum is the grid's |
| Aggregate.PaddedPass | src/HeatMap.js:137-239 | the same pass with padding 3 (the correction of Findings) |
| Aggregate.SamplesAreVisibleCells | src/HeatMap.js:226-231 | each sample carries its cell's full positive weight (the cap at the maximum never bites) and lies within half a pixel of the centroid |
| Aggregate.MaxCoversHiddenCells | src/HeatMap.js:202-226 | cells that are not emitted still count towards the maximum |
| Aggregate.EmptyPass | src/HeatMap.js:159-239 | no points give maximum 1 and an empty data list |
| Aggregate.CoincidentPointsInPass | src/HeatMap.js:162-235 | for any grid lines and box, points at one position give one sample, that position rounded with the sum of their weights, exactly when the position is in the box and its cell's indices are non-negative, and no sample otherwise |
| Aggregate.CoincidentPointsOneSample | src/HeatMap.js:162-235 | as written, points at one visible position give one sample, that position rounded with the sum of their weights, when their cell's indices are non-negative, and no sample when the `+2` padding leaves an index negative |
| Aggregate.PaddedCoincidentPointsOneSample | src/HeatMap.js:162-235 | with padding 3, points at one visible position always give exactly one sample |
| Aggregate.FloorAboveMinusThree | src/HeatMap.js:176-177 | the arithmetic step behind `HaloPointIndexedFromZero`: a coordinate less than three cell sides before the shifted origin is at most three whole cells before it, so its floor quotient is at least -3 |
| Aggregate.HaloPointIndexedFromZero | src/HeatMap.js:176-177 | with padding 3 and any pane offset, every position in the visibility box gets a non-negative row and column |
| Aggregate.PaddedPassKeepsHaloCells | src/HeatMap.js:143-226 | with padding 3 a cell is emitted exactly when its seed is in the visibility box |
| Aggregate.ExampleDroppedAsWritten | src/HeatMap.js:176-224 | as written, with padding 2, a point on the halo's top edge is in the visibility box yet its cell is `(-1, 2)`, in row -1, and the pass emits nothing |
| Aggregate.ExampleKeptWhenPadded | src/HeatMap.js:176-224 | with padding 3 the same point yields one sample, at its rounded position with its weight |
| Layer.MergeOptions | src/HeatMap.js:36-37 | setting options replaces each option given and keeps every other one |
| Layer.MergeOptionsIdempotent | src/HeatMap.js:36-37 | setting the same options twice equals setting them once, and setting none changes nothing |
| Layer.RadiusOption | src/HeatMap.js:110 | the painter gets the radius option when it is set and non-zero, and its own default otherwise |
| Layer.UpdateOptions | src/HeatMap.js:109-114 | the painter always gets the radius and blur first, and the gradient only when one is set |
| Layer.Ready | src/HeatMap.js:45 | a frame is requested only when a painter exists and a map is attached, and never while a frame is pending or the map is animating |
| Layer.Redraw | src/HeatMap.js:44-49 | a frame is requested, and becomes pending, exactly when a painter exists, none is pending, a map is attached and it is not animating; nothing else changes |
| Layer.RedrawCoalesces | src/HeatMap.js:44-49 | a second redraw request while a frame is pending does nothing |
| Layer.SetLatLngs | src/HeatMap.js:26-29 | the point list is replaced, nothing else but the pending flag changes, and a frame is requested exactly when the guard holds |
| Layer.AddLatLng | src/HeatMap.js:31-34 | exactly one point is appended and the earlier points stay unchanged, then `redraw` runs |
| Layer.SetOptions | src/HeatMap.js:36-42 | options are merged and pushed to the painter only if it exists, which then holds the radius its `radius` call set; then `redraw` runs; nothing else changes |
| Layer.Project | src/HeatMap.js:175 | each point is projected once, in order, keeping its weight |
| Layer.FrameRedraw | src/HeatMap.js:137-243 | with no map, nothing happens (the pending flag stays set); otherwise the maximum goes to the painter before the data and the draw, every sample is capped by it, and the pending flag is cleared; the maximum and the data list are those of the as-written pass over the projected points |
| Layer.FrameRedrawEmpty | src/HeatMap.js:159-239 | with no points, the painter gets maximum 1 and an empty data list |
| Layer.RedrawThenFrame | src/HeatMap.js:137-243 | after a requested frame has run, the next request schedules a new frame |
| Layer.Reset | src/HeatMap.js:121-135 | the canvas moves first; then each dimension is written exactly when it differed, so the painter's size equals the map's; then the redraw runs at once: the maximum, data list and draw of the as-written pass over the points, with that maximum stored and no frame pending |
| Layer.Resize | src/HeatMap.js:127-132 | each dimension is written exactly when it differs from the painter's stored one |
| Layer.ResetSettles | src/HeatMap.js:121-135 | a second reset over the same map writes no dimension: it moves the canvas and then makes exactly the first reset's three painter calls again |
| Layer.OperationsStaySound | src/HeatMap.js:26-243 | every operation keeps the layer sound (on a map only with a painter of positive radius, and all weights positive), given positive weights for new points and a positive radius set by the painter |

## Left out

- Weight extraction (src/HeatMap.js:179-183). It indexes `point[i]` by the loop counter `i` rather than the point's own fields. As written this has three consequences:
  - It throws a `TypeError` once `i` passes the point's own length. With `[lat, lng]` points that is at `i = 2`, and with `[lat, lng, w]` points at `i = 3`. With `L.LatLng` points, including every point the custom-field path at src/HeatMap.js:167-173 builds, it is at `i = 0`.
  - The throw skips `this._frame = null` (src/HeatMap.js:242). The frame stays pending, so every later `redraw` does nothing, and `_reset` throws the same way.
  - Every weight it does compute is 1. The third array entry or `alt` of the point is never read.

  Each point's weight is instead an input of the model, and weights are assumed positive. The model describes the pass, the frame callback (`Layer.FrameRedraw`, `Layer.RedrawThenFrame`) and `Layer.Reset` with the extraction working.
- The custom `latField`/`lngField`/`valueField` path (src/HeatMap.js:167-173). It builds `L.LatLng` objects through a foreign constructor.
- Projection, `getSize`, `_getMapPanePos` and `containerPointToLayerPoint`. They are map queries, taken as the `View` and the `proj` parameter.
- The painter (`simpleheat`) is outside the model. Its calls are recorded as `Effect`s. How `radius(r, blur)` computes its `_r` is not modelled: `SetOptions` takes the value it sets as its `r'` parameter, and the first `_updateOptions` call at canvas creation is part of `_initCanvas` below.
- `onAdd`, `onRemove`, `addTo`, `_initCanvas`: DOM and canvas creation, pane insertion, event listeners and CSS classes. `_animateZoom` is a CSS transform over map queries. Detaching is not an operation of the model: Leaflet's `removeLayer` clears `_map` after `onRemove`, which in the model is `view := None` done outside it. A frame still pending then fires into `FrameRedraw`'s no-map case: no calls, and the pending flag stays set (src/HeatMap.js:138).
- `requestAnimFrame` timing: a pending frame is a boolean. A frame still outstanding when `_reset` clears the flag is not modelled as a later second pass.
- IEEE-754 doubles, NaN and infinities: coordinates and weights are exact reals. A zero or negative weight (which can divide by zero in the merge) and a zero or negative render radius (a cell side that is zero or negative) are excluded by preconditions and by `Sound`, which requires `_r > 0`.
- Aliasing of the point array: `setLatLngs` keeps the caller's array by reference (src/HeatMap.js:27) and `addLatLng` pushes into it (src/HeatMap.js:32). So the caller's array is mutated, and the caller's own later edits reach the next frame. The model's point list is a value.
- A layer constructed without points (src/HeatMap.js:17) holds `undefined`, so `addLatLng` (src/HeatMap.js:32) and `_redraw` (src/HeatMap.js:162) throw a `TypeError`. The model's point list is always present, empty at worst.
- Layer.RadiusOption: JavaScript's `||` also treats `NaN` as absent; reals have no `NaN`.
- Layer.MergeOptions: an option passed explicitly as `undefined` overwrites the current value in the source; the model only has present or absent options.
- The bound on the number of samples by the viewport area divided by the cell area is not stated. Only the bound by the number of points (`Aggregate.Visible`) is proved.

## Findings

| source | as written | input that shows it | evidently intended | confidence | as-written member | corrected member |
|---|---|---|---|---|---|---|
| src/HeatMap.js:176-177 | indices are padded by `+2`, yet a point in the top or left halo strip can land in row or column -1 when the pane offset is positive; the sweep starts at index 0, so that visible cell is never emitted | `r = 2`, pane position `(0, 0.5)`, map size `10 x 10`, one point at `(0, -2)` with weight 1: the point is in the visibility box, its row is `floor((-2 - 0.5) / 1) + 2 = -1`, and the data list is empty | every cell whose seed is in the visibility box is emitted, which a padding of 3 achieves: every visible position then has non-negative indices (`Aggregate.HaloPointIndexedFromZero`) | not executed | Aggregate.ExampleDroppedAsWritten | Aggregate.PaddedPassKeepsHaloCells |

=== FILE: aggregate.dfy ===
/** One whole redraw pass: the grid frame is derived from the render radius and
    the pane position, the points are accumulated, the pass maximum is taken,
    and the visible cells are swept into samples. */
module Aggregate {
  import opened JsNum
  import opened Geometry
  import opened Grid
  import opened Sweep

  /** What one pass hands the painter: the maximum, then the data list. */
  datatype Pass = Pass(max: real, samples: seq<Sample>)

  /** The grid lines of a pass with render radius `r`: cells of side `r / 2`,
      shifted by the pane position's truncated remainder modulo the side, and
      indices padded by `pad`. */
  function GridFrame(r: real, pane: Pt, pad: int): (f: Frame)
    requires r > 0.0
    ensures f.side == r / 2.0 && f.pad == pad
    ensures -f.side < f.offX < f.side && -f.side < f.offY < f.side
    ensures 0.0 <= pane.x ==> 0.0 <= f.offX
    ensures 0.0 <= pane.y ==> 0.0 <= f.offY
    ensures pane.x < 0.0 ==> f.offX <= 0.0
    ensures pane.y < 0.0 ==> f.offY <= 0.0
  {
    var side := r / 2.0;
    Frame(side, Rem(pane.x, side), Rem(pane.y, side), pad)
  }

  /** The cells a pass over frame `f` emits, in sweep order: exactly those with
      non-negative indices whose seed lies in `box`. */
  function Visible(f: Frame, box: Box, pts: seq<Binned>): (ks: seq<Key>)
    requires f.side > 0.0 && Positive(pts)
    ensures forall k: Key :: k in ks <==> Emits(Accumulate(f, pts), box, k)
    ensures RowMajor(ks)
    ensures |ks| <= |pts|
  {
    var bins := Bins(f, pts);
    var g := Gather(bins, pts);
    var l := LayoutOf(bins);
    LayoutCoversCells(bins, pts);
    SweptAtMostCells(g, l, box);
    CellsAreThePointsCells(bins, pts);
    DistinctCellsBound(bins);
    Swept(g, l, box)
  }

  /** `p` is what a pass over frame `f` and box `box` hands the painter: the
      grid's maximum, then one sample per emitted cell, in sweep order. */
  ghost predicate PassOver(p: Pass, f: Frame, box: Box, pts: seq<Binned>)
    requires f.side > 0.0 && Positive(pts)
  {
    var g, ks := Accumulate(f, pts), Visible(f, box, pts);
    && p.max == g.max
    && |p.samples| == |ks|
    && forall i :: 0 <= i < |ks| ==> ks[i] in g.cells && p.samples[i] == SampleOf(g.cells[ks[i]], g.max)
  }

  /** A pass over frame `f` that keeps what lies in `box`. */
  function RunPass(f: Frame, box: Box, pts: seq<Binned>): (p: Pass)
    requires f.side > 0.0 && Positive(pts)
    ensures PassOver(p, f, box, pts)
    ensures 1.0 <= p.max && |p.samples| <= |pts|
  {
    var g := Accumulate(f, pts);
    Pass(g.max, Samples(g, Visible(f, box, pts)))
  }

  /** The pass as the layer runs it: padding 2, visibility box the viewport
      grown by `r`. */
  function RedrawPass(r: real, pane: Pt, size: Size, pts: seq<Binned>): (p: Pass)
    requires r > 0.0 && Positive(pts)
    ensures PassOver(p, GridFrame(r, pane, 2), HaloBounds(r, size), pts)
  {
    RunPass(GridFrame(r, pane, 2), HaloBounds(r, size), pts)
  }

  /** The same pass with padding 3, which leaves no visible cell at a negative
      index. */
  function PaddedPass(r: real, pane: Pt, size: Size, pts: seq<Binned>): (p: Pass)
    requires r > 0.0 && Positive(pts)
    ensures PassOver(p, GridFrame(r, pane, 3), HaloBounds(r, size), pts)
  {
    RunPass(GridFrame(r, pane, 3), HaloBounds(r, size), pts)
  }

  // ---------------------------------------------------------------------------
  // Facts about one pass

  /** Each sample is its cell's centroid rounded, carrying the cell's full
      weight: the cap at the maximum never bites, because the maximum covers
      every cell. */
  lemma {:induction false} SamplesAreVisibleCells(f: Frame, box: Box, pts: seq<Binned>)
    requires f.side > 0.0 && Positive(pts)
    ensures var p, g, ks := RunPass(f, box, pts), Accumulate(f, pts), Visible(f, box, pts);
      forall i :: 0 <= i < |p.samples| ==>
        && ks[i] in g.cells
        && p.samples[i].w == g.cells[ks[i]].w > 0.0
        && g.cells[ks[i]].x - 0.5 < p.samples[i].x as real <= g.cells[ks[i]].x + 0.5
        && g.cells[ks[i]].y - 0.5 < p.samples[i].y as real <= g.cells[ks[i]].y + 0.5
  {
    var p, g, ks := RunPass(f, box, pts), Accumulate(f, pts), Visible(f, box, pts);
    MaxIsHeaviestCell(Bins(f, pts), pts);
    forall i | 0 <= i < |p.samples|
      ensures ks[i] in g.cells && p.samples[i] == SampleOf(g.cells[ks[i]], g.max)
    {
      assert ks[i] in ks;
    }
  }

  /** The maximum is the larger of 1 and the heaviest cell's weight, counting
      cells that are not emitted. */
  lemma {:induction false} MaxCoversHiddenCells(f: Frame, box: Box, pts: seq<Binned>)
    requires f.side > 0.0 && Positive(pts)
    ensures var p, g := RunPass(f, box, pts), Accumulate(f, pts);
      && (forall k :: k in g.cells ==> g.cells[k].w <= p.max)
      && (p.max == 1.0 || exists k :: k in g.cells && g.cells[k].w == p.max)
  {
    MaxIsHeaviestCell(Bins(f, pts), pts);
  }

  /** No points: no samples, and the maximum stays 1. */
  lemma EmptyPass(f: Frame, box: Box)
    requires f.side > 0.0
    ensures RunPass(f, box, []) == Pass(1.0, [])
  {
    var ks := Visible(f, box, []);
    assert forall k :: k !in Accumulate(f, []).cells;
  }

  /** Points that share one position `q` make one cell; the pass emits it as
      one sample, at `q` rounded and carrying the sum of their weights, exactly
      when `q` is in the box and the cell's indices are not negative. */
  lemma {:induction false} CoincidentPointsInPass(f: Frame, box: Box, pts: seq<Binned>, q: Pt)
    requires f.side > 0.0 && Positive(pts) && |pts| > 0
    requires forall i :: 0 <= i < |pts| ==> pts[i].pos == q
    ensures var k := CellOf(f, q);
      RunPass(f, box, pts).samples ==
        if box.Contains(q) && 0 <= k.row && 0 <= k.col then [Sample(Round(q.x), Round(q.y), Weight(pts))] else []
  {
    var g, k := Accumulate(f, pts), CellOf(f, q);
    CoincidentPointsOneCell(f, pts, q);
    var vis := Visible(f, box, pts);
    if box.Contains(q) && 0 <= k.row && 0 <= k.col {
      assert Emits(g, box, k);
      EmittedOnce(vis, k);
      MaxIsHeaviestCell(Bins(f, pts), pts);
    } else {
      EmittedAtMost(vis, {});
    }
  }

  /** As written, coincident points inside the visibility box make one sample
      only when their cell's indices are not negative; otherwise none. */
  lemma {:induction false} CoincidentPointsOneSample(r: real, pane: Pt, size: Size, pts: seq<Binned>, q: Pt)
    requires r > 0.0 && Positive(pts) && |pts| > 0
    requires forall i :: 0 <= i < |pts| ==> pts[i].pos == q
    requires HaloBounds(r, size).Contains(q)
    ensures var k := CellOf(GridFrame(r, pane, 2), q);
      RedrawPass(r, pane, size, pts).samples ==
        if 0 <= k.row && 0 <= k.col then [Sample(Round(q.x), Round(q.y), Weight(pts))] else []
  {
    CoincidentPointsInPass(GridFrame(r, pane, 2), HaloBounds(r, size), pts, q);
  }

  /** With padding 3, coincident points inside the visibility box always make
      one sample. */
  lemma {:induction false} PaddedCoincidentPointsOneSample(r: real, pane: Pt, size: Size, pts: seq<Binned>, q: Pt)
    requires r > 0.0 && Positive(pts) && |pts| > 0
    requires forall i :: 0 <= i < |pts| ==> pts[i].pos == q
    requires HaloBounds(r, size).Contains(q)
    ensures PaddedPass(r, pane, size, pts).samples == [Sample(Round(q.x), Round(q.y), Weight(pts))]
  {
    var f := GridFrame(r, pane, 3);
    HaloPointIndexedFromZero(f, size, q);
    CoincidentPointsInPass(f, HaloBounds(r, size), pts, q);
  }

  // ---------------------------------------------------------------------------
  // The halo strip and the index padding

  /** A coordinate less than three cells of side `c` before the shifted origin
      lies at most three whole cells before it. */
  lemma FloorAboveMinusThree(t: real, c: real)
    requires c > 0.0 && t > -3.0 * c
    ensures (t / c).Floor >= -3
  {
    DivAtLeast(t, c, -3.0);
  }

  /** With padding 3, a position in the halo box lands in a cell with
      non-negative indices whenever the offsets are below one cell side, as
      every frame `GridFrame` builds with padding 3 has them. */
  lemma HaloPointIndexedFromZero(f: Frame, size: Size, q: Pt)
    requires f.side > 0.0 && f.pad == 3
    requires f.offX < f.side && f.offY < f.side
    requires HaloBounds(2.0 * f.side, size).Contains(q)
    ensures 0 <= CellOf(f, q).row && 0 <= CellOf(f, q).col
  {
    HaloBoundsContains(2.0 * f.side, size, q);
    FloorAboveMinusThree(q.y - f.offY, f.side);
    FloorAboveMinusThree(q.x - f.offX, f.side);
  }

  /** Hence with padding 3 the pass emits exactly the cells whose seed is in
      the halo box. */
  lemma {:induction false} PaddedPassKeepsHaloCells(f: Frame, size: Size, pts: seq<Binned>)
    requires f.side > 0.0 && f.pad == 3 && Positive(pts)
    requires f.offX < f.side && f.offY < f.side
    ensures var box, g := HaloBounds(2.0 * f.side, size), Accumulate(f, pts);
      forall k :: k in g.cells ==> (k in Visible(f, box, pts) <==> box.Contains(g.cells[k].seed))
  {
    var box, g := HaloBounds(2.0 * f.side, size), Accumulate(f, pts);
    forall k | k in g.cells && box.Contains(g.cells[k].seed)
      ensures 0 <= k.row && 0 <= k.col
    {
      SeedInItsCell(f, pts, k);
      HaloPointIndexedFromZero(f, size, g.cells[k].seed);
    }
  }

  /** The grid lines of the example below: cells of side 1, shifted half a
      cell down. */
  lemma ExampleFrame(pad: int)
    ensures GridFrame(2.0, Pt(0.0, 0.5), pad) == Frame(1.0, 0.0, 0.5, pad)
  {
    assert Trunc(0.5 / 1.0) == 0;
    assert Trunc(0.0 / 1.0) == 0;
  }

  /** As written, padding 2 drops a visible point: with the pane half a cell
      down, a point on the halo's top edge gets row -1, which the sweep never
      reaches, so the data list is empty. */
  lemma {:induction false} ExampleDroppedAsWritten(pts: seq<Binned>)
    requires pts == [Binned(Pt(0.0, -2.0), 1.0)]
    ensures HaloBounds(2.0, Size(10, 10)).Contains(pts[0].pos)
    ensures CellOf(GridFrame(2.0, Pt(0.0, 0.5), 2), pts[0].pos) == Key(-1, 2)
    ensures RedrawPass(2.0, Pt(0.0, 0.5), Size(10, 10), pts).samples == []
  {
    var f := GridFrame(2.0, Pt(0.0, 0.5), 2);
    ExampleFrame(2);
    assert CellOf(f, pts[0].pos) == Key(-1, 2);
    CoincidentPointsOneKey(f, pts, pts[0].pos);
    EmittedAtMost(Visible(f, HaloBounds(2.0, Size(10, 10)), pts), {});
  }

  /** Padding 3 emits the example point, rounded, with its weight. */
  lemma {:induction false} ExampleKeptWhenPadded(pts: seq<Binned>)
    requires pts == [Binned(Pt(0.0, -2.0), 1.0)]
    ensures HaloBounds(2.0, Size(10, 10)).Contains(pts[0].pos)
    ensures PaddedPass(2.0, Pt(0.0, 0.5), Size(10, 10), pts).samples == [Sample(0, -2, 1.0)]
  {
    var q := pts[0].pos;
    HaloBoundsContains(2.0, Size(10, 10), q);
    PaddedCoincidentPointsOneSample(2.0, Pt(0.0, 0.5), Size(10, 10), pts, q);
  }
}

=== FILE: geometry.dfy ===
/** Pixel geometry shared by the grid and the layer: points, the map's size and
    Leaflet's `L.Bounds` box with its inclusive `contains`. */
module Geometry {
  import opened JsNum

  /** A pixel position (`L.Point`), in container coordinates. */
  datatype Pt = Pt(x: real, y: real)

  /** The map's size in whole pixels, as `getSize()` reports it. */
  datatype Size = Size(x: nat, y: nat)

  /** An axis-aligned box; `Contains` includes the edges. */
  datatype Box = Box(lo: Pt, hi: Pt) {
    predicate Contains(p: Pt) {
      lo.x <= p.x <= hi.x && lo.y <= p.y <= hi.y
    }
  }

  /** `new L.Bounds(a, b)`: the smallest box holding both corners. */
  function BoundsOf(a: Pt, b: Pt): (box: Box)
    ensures box.Contains(a) && box.Contains(b)
    ensures forall p :: box.Contains(p) ==>
      (a.x <= p.x <= b.x || b.x <= p.x <= a.x) && (a.y <= p.y <= b.y || b.y <= p.y <= a.y)
  {
    Box(Pt(Min(a.x, b.x), Min(a.y, b.y)), Pt(Max(a.x, b.x), Max(a.y, b.y)))
  }

  /** The visibility box of one redraw pass: the viewport grown by `r` on each
      side. With a non-negative `r` the corners given are already the lower and
      the upper one. */
  function HaloBounds(r: real, size: Size): (box: Box)
    ensures 0.0 <= r ==> box == Box(Pt(-r, -r), Pt(size.x as real + r, size.y as real + r))
  {
    BoundsOf(Pt(-r, -r), Pt(size.x as real + r, size.y as real + r))
  }

  /** A point is visible exactly when it lies within `r` of the viewport,
      edges included. */
  lemma HaloBoundsContains(r: real, size: Size, p: Pt)
    requires 0.0 <= r
    ensures HaloBounds(r, size).Contains(p) <==>
      -r <= p.x <= size.x as real + r && -r <= p.y <= size.y as real + r
  {
  }
}

=== FILE: grid.dfy ===
/** The accumulation half of a redraw pass: every projected, weighted point is
    binned into a square cell of the grid and merged there by weighted centroid,
    while a pass-wide maximum weight is tracked.

    The loop is modelled in two layers: `Bins` computes the cell each point
    falls in, and `Gather` runs the merge loop over points already paired with
    their cells. Most facts are proved about `Gather` for any pairing, and so
    hold of `Accumulate`, which pairs each point with its own cell. */
module Grid {
  import opened Geometry

  /** A cell's index: `(row, col)`, the source's `(y, x)` array indices. */
  datatype Key = Key(row: int, col: int)

  /** A cell's accumulated centroid `(x, y)`, weight `w`, and the position of the
      point that created it (`cell.p` in the source). */
  datatype Cell = Cell(x: real, y: real, w: real, seed: Pt)

  /** One point of the pass: its projected container position and its weight. */
  datatype Binned = Binned(pos: Pt, w: real)

  /** Where the grid lines lie: the cell side, the pane's sub-cell offset, and
      the index padding added to every row and column. */
  datatype Frame = Frame(side: real, offX: real, offY: real, pad: int)

  /** The cells by key, and the running maximum weight. */
  datatype Grid = Grid(cells: map<Key, Cell>, max: real)

  /** The shape of the source's nested sparse arrays: the outer array's
      `length` (`rows`) and the `length` of each row array created (`cols`). */
  datatype Layout = Layout(rows: nat, cols: map<int, nat>)

  /** The grid before the first point: no cells, and the maximum starts at 1. */
  const Empty: Grid := Grid(map[], 1.0)

  ghost predicate Positive(pts: seq<Binned>) {
    forall i :: 0 <= i < |pts| ==> pts[i].w > 0.0
  }

  ghost predicate PositiveCells(g: Grid) {
    forall k :: k in g.cells ==> g.cells[k].w > 0.0
  }

  /** Cell `k`'s row array exists, and each non-negative index of `k` lies below
      the matching array's length, so the sweep reaches it. */
  ghost predicate Covers(l: Layout, k: Key) {
    && k.row in l.cols
    && (0 <= k.row ==> k.row < l.rows)
    && (0 <= k.col ==> k.col < l.cols[k.row])
  }

  ghost predicate Shaped(g: Grid, l: Layout) {
    forall k :: k in g.cells ==> Covers(l, k)
  }

  // ---------------------------------------------------------------------------
  // Binning

  /** The cell a position falls in. A position at or past the shifted origin
      gets an index of at least the padding; one before it gets less, and so a
      negative index once it is more than `pad` cells before it. */
  function CellOf(f: Frame, p: Pt): (k: Key)
    requires f.side > 0.0
    ensures (f.pad <= k.row) == (f.offY <= p.y)
    ensures (f.pad <= k.col) == (f.offX <= p.x)
  {
    FloorSign(p.y - f.offY, f.side);
    FloorSign(p.x - f.offX, f.side);
    Key(((p.y - f.offY) / f.side).Floor + f.pad, ((p.x - f.offX) / f.side).Floor + f.pad)
  }

  /** Whole cells below `t` are counted from zero exactly when `t` is not
      negative. */
  lemma FloorSign(t: real, c: real)
    requires c > 0.0
    ensures (0 <= (t / c).Floor) == (0.0 <= t)
  {
    if 0.0 <= t {
      DivAtLeast(t, c, 0.0);
    } else {
      DivAtMost(t, c, 0.0);
    }
  }

  /** A position falls in the one cell whose square, of side `f.side` and
      shifted by the pane offset and the padding, contains it. */
  lemma CellContains(f: Frame, p: Pt)
    requires f.side > 0.0
    ensures var k := CellOf(f, p);
      && f.offX + (k.col - f.pad) as real * f.side <= p.x < f.offX + (k.col - f.pad + 1) as real * f.side
      && f.offY + (k.row - f.pad) as real * f.side <= p.y < f.offY + (k.row - f.pad + 1) as real * f.side
  {
    FloorBelow(p.x - f.offX, f.side);
    FloorAbove(p.x - f.offX, f.side);
    FloorBelow(p.y - f.offY, f.side);
    FloorAbove(p.y - f.offY, f.side);
  }

  /** `floor(t / c)` whole cells of side `c` fit at or below `t`... */
  lemma FloorBelow(t: real, c: real)
    requires c > 0.0
    ensures (t / c).Floor as real * c <= t
  {
    var q := t / c;
    assert q * c == t;
    MulLe(q.Floor as real, q, c);
  }

  /** ... and one more cell reaches past `t`. */
  lemma FloorAbove(t: real, c: real)
    requires c > 0.0
    ensures t < ((t / c).Floor + 1) as real * c
  {
    var q := t / c;
    assert q * c == t;
    MulLt(q, (q.Floor + 1) as real, c);
  }

  lemma MulLe(a: real, b: real, c: real)
    requires a <= b && 0.0 <= c
    ensures a * c <= b * c
  {
  }

  lemma MulLt(a: real, b: real, c: real)
    requires a < b && 0.0 < c
    ensures a * c < b * c
  {
  }

  /** The cell of every point, in order. */
  function Bins(f: Frame, pts: seq<Binned>): (ks: seq<Key>)
    requires f.side > 0.0
    ensures |ks| == |pts|
    ensures forall i :: 0 <= i < |pts| ==> ks[i] == CellOf(f, pts[i].pos)
  {
    seq(|pts|, i requires 0 <= i < |pts| => CellOf(f, pts[i].pos))
  }

  // ---------------------------------------------------------------------------
  // The merge loop

  /** Merge one more point into a cell: the weighted centroid moves, the weight
      adds up, and the seed stays. */
  function Merge(c: Cell, p: Pt, w: real): (m: Cell)
    requires c.w > 0.0 && w > 0.0
    ensures m.seed == c.seed
    ensures m.w == c.w + w
    ensures m.x * m.w == c.x * c.w + p.x * w
    ensures m.y * m.w == c.y * c.w + p.y * w
  {
    Cell((c.x * c.w + p.x * w) / (c.w + w), (c.y * c.w + p.y * w) / (c.w + w), c.w + w, c.seed)
  }

  /** One iteration of the source's point loop, for a point falling in cell `k`:
      create the cell seeded at the point, or merge the point into it, then
      raise the maximum to the cell's weight. */
  function Place(g: Grid, k: Key, b: Binned): (g': Grid)
    requires b.w > 0.0
    requires PositiveCells(g)
    ensures PositiveCells(g')
    ensures g'.cells.Keys == g.cells.Keys + {k}
    ensures forall k' :: k' in g.cells && k' != k ==> g'.cells[k'] == g.cells[k']
    ensures k in g.cells ==> g.cells[k].w < g'.cells[k].w
    ensures g.max <= g'.max
  {
    var cell := if k in g.cells then Merge(g.cells[k], b.pos, b.w) else Cell(b.pos.x, b.pos.y, b.w, b.pos);
    Grid(g.cells[k := cell], if cell.w > g.max then cell.w else g.max)
  }

  /** The point loop, in list order, for points paired with cells `ks`. */
  function Gather(ks: seq<Key>, pts: seq<Binned>): (g: Grid)
    requires |ks| == |pts| && Positive(pts)
    ensures PositiveCells(g)
    ensures 1.0 <= g.max
    decreases |pts|
  {
    if |pts| == 0 then Empty
    else Place(Gather(ks[..|ks| - 1], pts[..|pts| - 1]), ks[|ks| - 1], pts[|pts| - 1])
  }

  /** The point loop of one pass over frame `f`. */
  function Accumulate(f: Frame, pts: seq<Binned>): (g: Grid)
    requires f.side > 0.0 && Positive(pts)
    ensures PositiveCells(g) && 1.0 <= g.max
    ensures |g.cells| <= |pts|
  {
    CellsAreThePointsCells(Bins(f, pts), pts);
    DistinctCellsBound(Bins(f, pts));
    Gather(Bins(f, pts), pts)
  }

  /** The `length` of a JavaScript array of length `len` once index `i` has been
      assigned; a negative `i` is a plain property and does not count. */
  function Assigned(len: nat, i: int): (n: nat)
    ensures 0 <= i ==> i < n
    ensures len <= n
    ensures n == len || n == i + 1
  {
    if 0 <= i && len <= i then i + 1 else len
  }

  /** The array lengths after `grid[y] = grid[y] || []` and `grid[y][x] = cell`:
      cells already reached stay reached, and `k` is reached. */
  function Grow(l: Layout, k: Key): (l': Layout)
    ensures Covers(l', k)
    ensures forall k' :: Covers(l, k') ==> Covers(l', k')
  {
    var row := if k.row in l.cols then l.cols[k.row] else 0;
    Layout(Assigned(l.rows, k.row), l.cols[k.row := Assigned(row, k.col)])
  }

  /** The array lengths the point loop leaves behind: every cell a point was
      placed in is reached by the sweep. */
  function LayoutOf(ks: seq<Key>): (l: Layout)
    ensures forall i :: 0 <= i < |ks| ==> Covers(l, ks[i])
    decreases |ks|
  {
    if |ks| == 0 then Layout(0, map[])
    else Grow(LayoutOf(ks[..|ks| - 1]), ks[|ks| - 1])
  }

  // ---------------------------------------------------------------------------
  // The points of one cell, and what merging them yields

  /** The points paired with cell `k`, in list order. */
  function PointsIn(ks: seq<Key>, pts: seq<Binned>, k: Key): (bs: seq<Binned>)
    requires |ks| == |pts|
    ensures |bs| <= |pts|
    ensures Positive(pts) ==> Positive(bs)
    decreases |pts|
  {
    if |pts| == 0 then []
    else PointsIn(ks[..|ks| - 1], pts[..|pts| - 1], k) + (if ks[|ks| - 1] == k then [pts[|pts| - 1]] else [])
  }

  /** Sum of the weights of `bs`. */
  ghost function Weight(bs: seq<Binned>): real
    decreases |bs|
  {
    if |bs| == 0 then 0.0 else Weight(bs[..|bs| - 1]) + bs[|bs| - 1].w
  }

  /** Sum of `x * w` over `bs`. */
  ghost function MomentX(bs: seq<Binned>): real
    decreases |bs|
  {
    if |bs| == 0 then 0.0 else MomentX(bs[..|bs| - 1]) + bs[|bs| - 1].pos.x * bs[|bs| - 1].w
  }

  /** Sum of `y * w` over `bs`. */
  ghost function MomentY(bs: seq<Binned>): real
    decreases |bs|
  {
    if |bs| == 0 then 0.0 else MomentY(bs[..|bs| - 1]) + bs[|bs| - 1].pos.y * bs[|bs| - 1].w
  }

  /** `c`'s position is the weight-weighted mean of the positions of `bs`: its
      coordinates times their (positive) total weight are the weighted sums of
      theirs. */
  ghost predicate WeightedMean(c: Cell, bs: seq<Binned>) {
    && Weight(bs) > 0.0
    && c.x * Weight(bs) == MomentX(bs)
    && c.y * Weight(bs) == MomentY(bs)
  }

  /** The cell that merging the points `bs` one by one produces: seeded at the
      first, its weight the sum of theirs, its centroid times its weight the
      weighted sum of their positions. */
  function Fold(bs: seq<Binned>): (c: Cell)
    requires |bs| > 0 && Positive(bs)
    ensures c.seed == bs[0].pos
    ensures c.w == Weight(bs) && c.w > 0.0
    ensures WeightedMean(c, bs)
    decreases |bs|
  {
    if |bs| == 1 then Cell(bs[0].pos.x, bs[0].pos.y, bs[0].w, bs[0].pos)
    else Merge(Fold(bs[..|bs| - 1]), bs[|bs| - 1].pos, bs[|bs| - 1].w)
  }

  // ---------------------------------------------------------------------------
  // Facts about the merge loop

  /** The grid holds a cell for `k` exactly when some point is paired with `k`,
      and that cell is what merging those points, in list order, produces. */
  lemma {:induction false} CellIsFold(ks: seq<Key>, pts: seq<Binned>, k: Key)
    requires |ks| == |pts| && Positive(pts)
    ensures k in Gather(ks, pts).cells <==> |PointsIn(ks, pts, k)| > 0
    ensures k in Gather(ks, pts).cells ==> Gather(ks, pts).cells[k] == Fold(PointsIn(ks, pts, k))
    decreases |pts|
  {
    if |pts| > 0 {
      var ks0, pts0 := ks[..|ks| - 1], pts[..|pts| - 1];
      var g0, b := Gather(ks0, pts0), pts[|pts| - 1];
      CellIsFold(ks0, pts0, k);
      var bs0 := PointsIn(ks0, pts0, k);
      if ks[|ks| - 1] == k {
        var bs := bs0 + [b];
        assert bs[..|bs| - 1] == bs0;
        if k in g0.cells {
          assert Fold(bs) == Merge(Fold(bs0), b.pos, b.w);
        } else {
          assert bs == [b];
        }
      } else {
        assert bs0 + [] == bs0;
      }
    }
  }

  /** `b` is one of the points paired with `k`. */
  ghost predicate PairedWith(ks: seq<Key>, pts: seq<Binned>, k: Key, b: Binned) {
    exists i :: 0 <= i < |pts| && i < |ks| && ks[i] == k && pts[i] == b
  }

  /** The points of cell `k` are exactly the points paired with `k`. */
  lemma {:induction false} PointsInAreTheCellsPoints(ks: seq<Key>, pts: seq<Binned>, k: Key)
    requires |ks| == |pts|
    ensures forall b :: b in PointsIn(ks, pts, k) ==> PairedWith(ks, pts, k, b)
    ensures forall i :: 0 <= i < |pts| && ks[i] == k ==> pts[i] in PointsIn(ks, pts, k)
    decreases |pts|
  {
    if |pts| > 0 {
      var n := |pts| - 1;
      var ks0, pts0 := ks[..n], pts[..n];
      PointsInAreTheCellsPoints(ks0, pts0, k);
      var bs0 := PointsIn(ks0, pts0, k);
      var bs := PointsIn(ks, pts, k);
      assert bs == bs0 + (if ks[n] == k then [pts[n]] else []);
      forall b | b in bs
        ensures PairedWith(ks, pts, k, b)
      {
        if b in bs0 {
          var i :| 0 <= i < |pts0| && i < |ks0| && ks0[i] == k && pts0[i] == b;
        } else {
        }
      }
      forall i | 0 <= i < |pts| && ks[i] == k
        ensures pts[i] in bs
      {
        if i < n {
          assert pts[i] in bs0;
        } else {
          assert bs[|bs| - 1] == pts[i];
        }
      }
    }
  }

  /** A cell's weight is the sum of the weights of the points in it. */
  lemma {:induction false} WeightIsSum(ks: seq<Key>, pts: seq<Binned>, k: Key)
    requires |ks| == |pts| && Positive(pts)
    requires k in Gather(ks, pts).cells
    ensures Gather(ks, pts).cells[k].w == Weight(PointsIn(ks, pts, k))
  {
    CellIsFold(ks, pts, k);
  }

  /** A cell's position is the weight-weighted mean of the positions of the
      points merged into it. */
  lemma {:induction false} CentroidIsWeightedMean(ks: seq<Key>, pts: seq<Binned>, k: Key)
    requires |ks| == |pts| && Positive(pts)
    requires k in Gather(ks, pts).cells
    ensures WeightedMean(Gather(ks, pts).cells[k], PointsIn(ks, pts, k))
  {
    CellIsFold(ks, pts, k);
  }

  /** Cancelling a positive factor from `lo * s <= n`. */
  lemma DivAtLeast(n: real, s: real, lo: real)
    requires s > 0.0 && lo * s <= n
    ensures lo <= n / s
  {
    if n / s < lo {
      MulLt(n / s, lo, s);
    }
  }
  /** Cancelling a positive factor from `n <= hi * s`. */
  lemma DivAtMost(n: real, s: real, hi: real)
    requires s > 0.0 && n <= hi * s
    ensures n / s <= hi
  {
    if hi < n / s {
      MulLt(hi, n / s, s);
    }
  }
  /** A weighted mean of two values at least `lo` is at least `lo`. */
  lemma MeanAbove(a: real, wa: real, b: real, wb: real, lo: real)
    requires wa > 0.0 && wb > 0.0
    requires lo <= a && lo <= b
    ensures lo <= (a * wa + b * wb) / (wa + wb)
  {
    MulLe(lo, a, wa);
    MulLe(lo, b, wb);
    assert lo * (wa + wb) == lo * wa + lo * wb;
    DivAtLeast(a * wa + b * wb, wa + wb, lo);
  }
  /** A weighted mean of two values at most `hi` is at most `hi`. */
  lemma MeanBelow(a: real, wa: real, b: real, wb: real, hi: real)
    requires wa > 0.0 && wb > 0.0
    requires a <= hi && b <= hi
    ensures (a * wa + b * wb) / (wa + wb) <= hi
  {
    MulLe(a, hi, wa);
    MulLe(b, hi, wb);
    assert hi * (wa + wb) == hi * wa + hi * wb;
    DivAtMost(a * wa + b * wb, wa + wb, hi);
  }

  /** Merging a point of a box into a cell whose centroid is in the box keeps
      the centroid in the box. */
  lemma MergeWithin(c: Cell, p: Pt, w: real, box: Box)
    requires c.w > 0.0 && w > 0.0
    requires box.Contains(Pt(c.x, c.y)) && box.Contains(p)
    ensures var m := Merge(c, p, w); box.Contains(Pt(m.x, m.y))
  {
    MeanAbove(c.x, c.w, p.x, w, box.lo.x);
    MeanBelow(c.x, c.w, p.x, w, box.hi.x);
    MeanAbove(c.y, c.w, p.y, w, box.lo.y);
    MeanBelow(c.y, c.w, p.y, w, box.hi.y);
  }

  /** Merged points all lying in a box leave the centroid in that box. */
  lemma {:induction false} FoldWithin(bs: seq<Binned>, box: Box)
    requires |bs| > 0 && Positive(bs)
    requires forall j :: 0 <= j < |bs| ==> box.Contains(bs[j].pos)
    ensures var c := Fold(bs); box.Contains(Pt(c.x, c.y))
    decreases |bs|
  {
    if |bs| > 1 {
      var init := bs[..|bs| - 1];
      FoldWithin(init, box);
      MergeWithin(Fold(init), bs[|bs| - 1].pos, bs[|bs| - 1].w, box);
    }
  }

  /** A cell's centroid lies in every box that holds all the points merged into
      it, so between their least and greatest coordinates. */
  lemma {:induction false} CentroidWithinPoints(ks: seq<Key>, pts: seq<Binned>, k: Key, box: Box)
    requires |ks| == |pts| && Positive(pts)
    requires k in Gather(ks, pts).cells
    requires forall i :: 0 <= i < |pts| && ks[i] == k ==> box.Contains(pts[i].pos)
    ensures var c := Gather(ks, pts).cells[k]; box.Contains(Pt(c.x, c.y))
  {
    CellIsFold(ks, pts, k);
    PointsInAreTheCellsPoints(ks, pts, k);
    var bs := PointsIn(ks, pts, k);
    forall j | 0 <= j < |bs|
      ensures box.Contains(bs[j].pos)
    {
      assert bs[j] in bs;
      var i :| 0 <= i < |pts| && i < |ks| && ks[i] == k && pts[i] == bs[j];
    }
    FoldWithin(bs, box);
  }

  /** A cell's seed is the position of the first point that fell in it: later
      merges never move it. */
  lemma {:induction false} SeedIsFirstPoint(ks: seq<Key>, pts: seq<Binned>, i: int)
    requires |ks| == |pts| && Positive(pts)
    requires 0 <= i < |pts|
    requires forall j :: 0 <= j < i ==> ks[j] != ks[i]
    ensures ks[i] in Gather(ks, pts).cells && Gather(ks, pts).cells[ks[i]].seed == pts[i].pos
    decreases |pts|
  {
    var ks0, pts0 := ks[..|ks| - 1], pts[..|pts| - 1];
    if i == |pts| - 1 {
      CellsAreThePointsCells(ks0, pts0);
    } else {
      SeedIsFirstPoint(ks0, pts0, i);
    }
  }

  /** Every cell's seed is the position of one of the points paired with it. */
  lemma {:induction false} SeedIsAPointOfTheCell(ks: seq<Key>, pts: seq<Binned>, k: Key)
    requires |ks| == |pts| && Positive(pts)
    requires k in Gather(ks, pts).cells
    ensures exists i :: 0 <= i < |pts| && ks[i] == k && pts[i].pos == Gather(ks, pts).cells[k].seed
  {
    CellIsFold(ks, pts, k);
    PointsInAreTheCellsPoints(ks, pts, k);
    var bs := PointsIn(ks, pts, k);
    assert bs[0] in bs;
  }

  /** The grid has a cell for each cell some point falls in, and no other. */
  lemma {:induction false} CellsAreThePointsCells(ks: seq<Key>, pts: seq<Binned>)
    requires |ks| == |pts| && Positive(pts)
    ensures Gather(ks, pts).cells.Keys == set k | k in ks
    decreases |pts|
  {
    if |pts| > 0 {
      var init := ks[..|ks| - 1];
      CellsAreThePointsCells(init, pts[..|pts| - 1]);
      assert ks == init + [ks[|ks| - 1]];
      assert (set k | k in ks) == (set k | k in init) + {ks[|ks| - 1]};
    }
  }

  /** There are no more distinct cells than points. */
  lemma {:induction false} DistinctCellsBound(ks: seq<Key>)
    ensures |set k | k in ks| <= |ks|
    decreases |ks|
  {
    if |ks| > 0 {
      var init := ks[..|ks| - 1];
      DistinctCellsBound(init);
      assert ks == init + [ks[|ks| - 1]];
      assert (set k | k in ks) == (set k | k in init) + {ks[|ks| - 1]};
    }
  }

  /** The maximum ends as the larger of 1 and the heaviest cell's weight: it
      dominates every cell, off-screen ones included, and is reached by one of
      them unless it is still 1. */
  lemma {:induction false} MaxIsHeaviestCell(ks: seq<Key>, pts: seq<Binned>)
    requires |ks| == |pts| && Positive(pts)
    ensures var g := Gather(ks, pts);
      && (forall k :: k in g.cells ==> g.cells[k].w <= g.max)
      && (g.max == 1.0 || exists k :: k in g.cells && g.cells[k].w == g.max)
    decreases |pts|
  {
    if |pts| > 0 {
      var ks0, pts0 := ks[..|ks| - 1], pts[..|pts| - 1];
      MaxIsHeaviestCell(ks0, pts0);
      var g0 := Gather(ks0, pts0);
      var g := Gather(ks, pts);
      var kb := ks[|ks| - 1];
      assert g == Place(g0, kb, pts[|pts| - 1]);
      if g.max != 1.0 && g.max != g.cells[kb].w {
        var k0 :| k0 in g0.cells && g0.cells[k0].w == g0.max;
        assert k0 != kb;
      }
    }
  }

  /** Every cell of the pass is reached by the sweep's array lengths. */
  lemma {:induction false} LayoutCoversCells(ks: seq<Key>, pts: seq<Binned>)
    requires |ks| == |pts| && Positive(pts)
    ensures Shaped(Gather(ks, pts), LayoutOf(ks))
  {
    CellsAreThePointsCells(ks, pts);
  }

  // ---------------------------------------------------------------------------
  // The same facts for a pass over one frame

  /** Points that all sit at one position make a cell at exactly that position. */
  lemma {:induction false} CellAtCommonPosition(f: Frame, pts: seq<Binned>, p: Pt)
    requires f.side > 0.0 && Positive(pts)
    requires CellOf(f, p) in Accumulate(f, pts).cells
    requires forall i :: 0 <= i < |pts| && CellOf(f, pts[i].pos) == CellOf(f, p) ==> pts[i].pos == p
    ensures var c := Accumulate(f, pts).cells[CellOf(f, p)]; c.x == p.x && c.y == p.y
  {
    CentroidWithinPoints(Bins(f, pts), pts, CellOf(f, p), Box(p, p));
  }

  /** Every cell's seed falls in that cell. */
  lemma {:induction false} SeedInItsCell(f: Frame, pts: seq<Binned>, k: Key)
    requires f.side > 0.0 && Positive(pts)
    requires k in Accumulate(f, pts).cells
    ensures CellOf(f, Accumulate(f, pts).cells[k].seed) == k
  {
    SeedIsAPointOfTheCell(Bins(f, pts), pts, k);
  }

  lemma {:induction false} PointsInAll(ks: seq<Key>, pts: seq<Binned>, k: Key)
    requires |ks| == |pts|
    requires forall i :: 0 <= i < |ks| ==> ks[i] == k
    ensures PointsIn(ks, pts, k) == pts
    decreases |pts|
  {
    if |pts| > 0 {
      PointsInAll(ks[..|ks| - 1], pts[..|pts| - 1], k);
      assert pts == pts[..|pts| - 1] + [pts[|pts| - 1]];
    }
  }

  /** Points that all sit at one position `p` fall in one cell. */
  lemma {:induction false} CoincidentPointsOneKey(f: Frame, pts: seq<Binned>, p: Pt)
    requires f.side > 0.0 && Positive(pts) && |pts| > 0
    requires forall i :: 0 <= i < |pts| ==> pts[i].pos == p
    ensures Accumulate(f, pts).cells.Keys == {CellOf(f, p)}
  {
    var ks := Bins(f, pts);
    assert forall i :: 0 <= i < |ks| ==> ks[i] == CellOf(f, p);
    CellsAreThePointsCells(ks, pts);
    assert ks[0] in ks;
  }

  /** Points that all sit at one position `p` make a single cell, seeded at
      `p`, centred on `p`, and carrying their total weight. */
  lemma {:induction false} CoincidentPointsOneCell(f: Frame, pts: seq<Binned>, p: Pt)
    requires f.side > 0.0 && Positive(pts) && |pts| > 0
    requires forall i :: 0 <= i < |pts| ==> pts[i].pos == p
    ensures Accumulate(f, pts).cells == map[CellOf(f, p) := Cell(p.x, p.y, Weight(pts), p)]
  {
    var ks, k := Bins(f, pts), CellOf(f, p);
    var g := Gather(ks, pts);
    CoincidentPointsOneKey(f, pts, p);
    assert forall i :: 0 <= i < |ks| ==> ks[i] == k;
    PointsInAll(ks, pts, k);
    CellIsFold(ks, pts, k);
    CellAtCommonPosition(f, pts, p);
  }
}

=== FILE: jsnum.dfy ===
/** The few JavaScript number operations the redraw pass relies on, over exact
    reals: the truncating `%`, `Math.round`, `Math.min` and `Math.max`. */
module JsNum {

  function Abs(x: real): real {
    if x < 0.0 then -x else x
  }

  /** Truncation toward zero, the quotient JavaScript's `%` is built on. */
  function Trunc(x: real): (n: int)
    ensures 0.0 <= x ==> n as real <= x < n as real + 1.0
    ensures x < 0.0 ==> n as real - 1.0 < x <= n as real
  {
    if 0.0 <= x then x.Floor else -((-x).Floor)
  }

  /** JavaScript's `a % b`: the remainder takes the sign of the dividend, unlike
      Dafny's Euclidean `%`. */
  function Rem(a: real, b: real): (m: real)
    requires b != 0.0
    ensures 0.0 <= a ==> 0.0 <= m < Abs(b)
    ensures a < 0.0 ==> -Abs(b) < m <= 0.0
    ensures ((a - m) / b).Floor as real == (a - m) / b
  {
    var q := Trunc(a / b);
    RemBounds(a, b, q);
    a - b * q as real
  }

  lemma RemBounds(a: real, b: real, q: int)
    requires b != 0.0
    requires q == Trunc(a / b)
    ensures var m := a - b * q as real;
      && (0.0 <= a ==> 0.0 <= m < Abs(b))
      && (a < 0.0 ==> -Abs(b) < m <= 0.0)
      && ((a - m) / b).Floor as real == (a - m) / b
  {
    var t := a / b;
    var d := t - q as real;
    var m := a - b * q as real;
    Factor(a, b, q as real);
    assert m == b * d;
    assert (a - m) / b == q as real;
    assert (0.0 <= a) == (0.0 <= b * t);
    if 0.0 <= t {
    } else {
    }
    ScaleBounds(b, d);
    ScaleSign(b, d);
    ScaleSign(b, t);
  }

  /** `a - b * q` is `b` times the distance from `q` to the quotient `a / b`,
      and removing it leaves exactly `b * q`. */
  lemma Factor(a: real, b: real, q: real)
    requires b != 0.0
    ensures a - b * q == b * (a / b - q)
    ensures (a - (a - b * q)) / b == q
  {
  }

  /** Scaling a fraction of magnitude below one by `b` stays below `|b|`. */
  lemma ScaleBounds(b: real, d: real)
    requires b != 0.0
    requires -1.0 < d < 1.0
    ensures -Abs(b) < b * d < Abs(b)
  {
    if 0.0 < b {
      assert Abs(b) == b;
    } else {
      assert Abs(b) == -b;
    }
  }

  /** The sign of `b * d`. */
  lemma ScaleSign(b: real, d: real)
    ensures 0.0 <= d && 0.0 < b ==> 0.0 <= b * d
    ensures d <= 0.0 && 0.0 < b ==> b * d <= 0.0
    ensures 0.0 <= d && b < 0.0 ==> b * d <= 0.0
    ensures d <= 0.0 && b < 0.0 ==> 0.0 <= b * d
  {
  }

  /** JavaScript's `Math.round`: the nearest integer, halves rounded up. */
  function Round(x: real): (n: int)
    ensures x - 0.5 < n as real <= x + 0.5
  {
    (x + 0.5).Floor
  }

  /** JavaScript's `Math.min` on two numbers. */
  function Min(a: real, b: real): (m: real)
    ensures m <= a && m <= b
    ensures m == a || m == b
  {
    if b < a then b else a
  }

  /** JavaScript's `Math.max` on two numbers. */
  function Max(a: real, b: real): (m: real)
    ensures a <= m && b <= m
    ensures m == a || m == b
  {
    if a < b then b else a
  }
}

=== FILE: layer.dfy ===
/** The heat layer as a small state machine: the point list, the options, the
    painter and the map it is attached to, and whether an animation frame is
    pending. Every operation returns the next state together with the calls it
    makes, in order, on the outside world: the frame scheduler, the canvas and
    the painter. Map queries are read from a `View`, and the projection of a
    geographic point to a container pixel is a function parameter. */
module Layer {
  import opened Geometry
  import opened Grid
  import opened Sweep
  import opened Aggregate

  datatype Option<T> = None | Some(value: T)

  /** A colour gradient, from stop to CSS colour; the layer only forwards it. */
  type Gradient = map<real, string>

  /** The options the layer reads; an absent option is `None`. */
  datatype Options = Options(
    radius: Option<real>,
    blur: Option<real>,
    gradient: Option<Gradient>,
    minOpacity: Option<real>)

  const NoOptions: Options := Options(None, None, None, None)

  /** The painter's state the layer reads and writes: the render radius `r`
      (its `_r`), its default radius, and the canvas dimensions it was told. */
  datatype Painter = Painter(r: real, defaultRadius: real, width: nat, height: nat)

  /** What the layer asks of the map: its size, the pane position, whether a
      zoom animation is running, and where the container's top-left corner
      lies in layer coordinates. */
  datatype View = View(size: Size, pane: Pt, animating: bool, topLeft: Pt)

  datatype LatLng = LatLng(lat: real, lng: real)

  /** One point of the layer with its weight (an input of the model). */
  datatype HeatPoint = HeatPoint(at: LatLng, w: real)

  /** The layer: `heat` exists once the canvas is created, `view` while the layer
      is on a map, and `max` is the maximum of the last pass. */
  datatype Layer = Layer(
    points: seq<HeatPoint>,
    options: Options,
    heat: Option<Painter>,
    view: Option<View>,
    framePending: bool,
    max: real)

  /** A call the layer makes on the frame scheduler, the canvas or the painter. */
  datatype Effect =
    | RequestFrame
    | SetPosition(at: Pt)
    | SetWidth(width: nat)
    | SetHeight(height: nat)
    | HeatRadius(radius: real, blur: Option<real>)
    | HeatGradient(gradient: Gradient)
    | HeatMax(max: real)
    | HeatData(data: seq<Sample>)
    | HeatDraw(minOpacity: Option<real>)

  /** Calls on the painter that a redraw pass makes. */
  predicate Painting(e: Effect) {
    e.HeatMax? || e.HeatData? || e.HeatDraw?
  }

  /** The state after an operation, and the calls it made in order. */
  datatype Step = Step(layer: Layer, effects: seq<Effect>)

  ghost predicate Weighted(pts: seq<HeatPoint>) {
    forall i :: 0 <= i < |pts| ==> pts[i].w > 0.0
  }

  /** What every reachable state satisfies: the layer is only on a map once its
      painter exists with a positive radius, and every weight is positive. */
  ghost predicate Sound(l: Layer) {
    && (l.view.Some? ==> l.heat.Some? && l.heat.value.r > 0.0)
    && Weighted(l.points)
  }

  // ---------------------------------------------------------------------------
  // Options

  function Or<T>(given: Option<T>, cur: Option<T>): Option<T> {
    if given.Some? then given else cur
  }

  /** Setting options: each option given replaces the current one, and the
      options not given stay as they were. */
  function MergeOptions(cur: Options, given: Options): (o: Options)
    ensures given.radius.Some? ==> o.radius == given.radius
    ensures given.radius.None? ==> o.radius == cur.radius
    ensures given.blur.Some? ==> o.blur == given.blur
    ensures given.blur.None? ==> o.blur == cur.blur
    ensures given.gradient.Some? ==> o.gradient == given.gradient
    ensures given.gradient.None? ==> o.gradient == cur.gradient
    ensures given.minOpacity.Some? ==> o.minOpacity == given.minOpacity
    ensures given.minOpacity.None? ==> o.minOpacity == cur.minOpacity
  {
    Options(Or(given.radius, cur.radius), Or(given.blur, cur.blur),
      Or(given.gradient, cur.gradient), Or(given.minOpacity, cur.minOpacity))
  }

  /** Setting the same options twice is setting them once, and setting none
      changes nothing. */
  lemma MergeOptionsIdempotent(cur: Options, given: Options)
    ensures MergeOptions(MergeOptions(cur, given), given) == MergeOptions(cur, given)
    ensures MergeOptions(cur, NoOptions) == cur
  {
  }

  /** The radius handed to the painter: the option if it is set and non-zero
      (JavaScript's `||`), else the painter's default. */
  function RadiusOption(o: Options, h: Painter): (r: real)
    ensures r == h.defaultRadius || (o.radius == Some(r) && r != 0.0)
    ensures o.radius.Some? && o.radius.value != 0.0 ==> r == o.radius.value
  {
    if o.radius.Some? && o.radius.value != 0.0 then o.radius.value else h.defaultRadius
  }

  /** Pushing the options to the painter: the radius and blur always, the
      gradient only when one is set. */
  function UpdateOptions(o: Options, h: Painter): (fx: seq<Effect>)
    ensures 1 <= |fx| <= 2
    ensures fx[0] == HeatRadius(RadiusOption(o, h), o.blur)
    ensures |fx| == 2 <==> o.gradient.Some?
    ensures |fx| == 2 ==> fx[1] == HeatGradient(o.gradient.value)
  {
    [HeatRadius(RadiusOption(o, h), o.blur)] + (if o.gradient.Some? then [HeatGradient(o.gradient.value)] else [])
  }

  // ---------------------------------------------------------------------------
  // Scheduling

  /** A frame may be requested: the painter exists, none is pending, the layer
      is on a map, and the map is not animating. */
  predicate Ready(l: Layer)
    ensures Ready(l) ==> l.heat.Some? && l.view.Some?
    ensures l.framePending || (l.view.Some? && l.view.value.animating) ==> !Ready(l)
  {
    l.heat.Some? && !l.framePending && l.view.Some? && !l.view.value.animating
  }

  /** Ask for a redraw on the next animation frame, unless one is already
      pending or the layer cannot draw now. */
  function Redraw(l: Layer): (s: Step)
    ensures s.effects == [RequestFrame] <==> Ready(l)
    ensures s.effects == [] <==> !Ready(l)
    ensures s.layer.framePending <==> l.framePending || Ready(l)
    ensures s.layer.(framePending := l.framePending) == l
  {
    if Ready(l) then Step(l.(framePending := true), [RequestFrame]) else Step(l, [])
  }

  /** Requests coalesce: while a frame is pending, asking again does nothing. */
  lemma RedrawCoalesces(l: Layer)
    ensures var s := Redraw(l); Redraw(s.layer) == Step(s.layer, [])
  {
  }

  /** Replace the point list, then ask for a redraw. */
  function SetLatLngs(l: Layer, pts: seq<HeatPoint>): (s: Step)
    ensures s.layer.points == pts
    ensures s.layer.(points := l.points, framePending := l.framePending) == l
    ensures s.effects == (if Ready(l) then [RequestFrame] else [])
  {
    Redraw(l.(points := pts))
  }

  /** Append one point, then ask for a redraw. */
  function AddLatLng(l: Layer, p: HeatPoint): (s: Step)
    ensures |s.layer.points| == |l.points| + 1
    ensures s.layer.points[..|l.points|] == l.points && s.layer.points[|l.points|] == p
    ensures s.layer.(points := l.points, framePending := l.framePending) == l
    ensures s.effects == (if Ready(l) then [RequestFrame] else [])
  {
    Redraw(l.(points := l.points + [p]))
  }

  /** Merge options, push them to the painter if it exists, then ask for a
      redraw. The painter's `radius` call sets its render radius; `r'` is the
      value it sets, which the painter computes. */
  function SetOptions(l: Layer, given: Options, r': real): (s: Step)
    ensures s.layer.options == MergeOptions(l.options, given)
    ensures s.layer.heat == if l.heat.Some? then Some(l.heat.value.(r := r')) else None
    ensures s.layer.(options := l.options, heat := l.heat, framePending := l.framePending) == l
    ensures var pushed := if l.heat.Some? then UpdateOptions(s.layer.options, l.heat.value) else [];
      s.effects == pushed + (if Ready(l) then [RequestFrame] else [])
  {
    var o := MergeOptions(l.options, given);
    var pushed := if l.heat.Some? then UpdateOptions(o, l.heat.value) else [];
    var l1 := l.(options := o, heat := if l.heat.Some? then Some(l.heat.value.(r := r')) else None);
    var s := Redraw(l1);
    Step(s.layer, pushed + s.effects)
  }

  // ---------------------------------------------------------------------------
  // The frame callback and the view reset

  /** The layer's points, projected to container pixels. */
  function Project(proj: LatLng -> Pt, pts: seq<HeatPoint>): (bs: seq<Binned>)
    ensures |bs| == |pts|
    ensures forall i :: 0 <= i < |pts| ==> bs[i] == Binned(proj(pts[i].at), pts[i].w)
    ensures Weighted(pts) ==> Positive(bs)
  {
    seq(|pts|, i requires 0 <= i < |pts| => Binned(proj(pts[i].at), pts[i].w))
  }

  /** The redraw itself: nothing without a map; otherwise one grid pass over
      the projected points, as written (padding 2), whose maximum is handed to
      the painter before its data list, which is then drawn; the pending frame
      is cleared. */
  function FrameRedraw(l: Layer, proj: LatLng -> Pt): (s: Step)
    requires Sound(l)
    ensures l.view.None? ==> s == Step(l, [])
    ensures l.view.Some? ==>
      && s.layer.(framePending := l.framePending, max := l.max) == l
      && !s.layer.framePending
      && 1.0 <= s.layer.max
      && |s.effects| == 3
      && s.effects[0] == HeatMax(s.layer.max)
      && s.effects[1].HeatData?
      && s.effects[2] == HeatDraw(l.options.minOpacity)
      && |s.effects[1].data| <= |l.points|
      && (forall i :: 0 <= i < |s.effects[1].data| ==> s.effects[1].data[i].w <= s.layer.max)
      && (forall e :: e in s.effects ==> Painting(e))
      && var p := RedrawPass(l.heat.value.r, l.view.value.pane, l.view.value.size, Project(proj, l.points));
        s.layer.max == p.max && s.effects[1].data == p.samples
  {
    if l.view.None? then Step(l, [])
    else
      var v, h := l.view.value, l.heat.value;
      var p := RedrawPass(h.r, v.pane, v.size, Project(proj, l.points));
      Step(l.(framePending := false, max := p.max), [HeatMax(p.max), HeatData(p.samples), HeatDraw(l.options.minOpacity)])
  }

  /** With no points, a pass hands the painter a maximum of 1 and no data. */
  lemma {:induction false} FrameRedrawEmpty(l: Layer, proj: LatLng -> Pt)
    requires Sound(l) && l.view.Some? && l.points == []
    ensures FrameRedraw(l, proj).effects == [HeatMax(1.0), HeatData([]), HeatDraw(l.options.minOpacity)]
  {
    var v, h := l.view.value, l.heat.value;
    assert Project(proj, []) == [];
    EmptyPass(GridFrame(h.r, v.pane, 2), HaloBounds(h.r, v.size));
  }

  /** A requested frame, once run, clears the pending flag, so the next request
      schedules a new frame. */
  lemma RedrawThenFrame(l: Layer, proj: LatLng -> Pt)
    requires Sound(l) && Ready(l)
    ensures var s := FrameRedraw(Redraw(l).layer, proj);
      && !s.layer.framePending
      && Redraw(s.layer).effects == [RequestFrame]
  {
  }

  /** On a view reset: move the canvas to the container's top-left corner,
      resize canvas and painter to the map size (each dimension only if it
      differs), then redraw at once. */
  function Reset(l: Layer, proj: LatLng -> Pt): (s: Step)
    requires Sound(l) && l.view.Some?
    ensures var v, h := l.view.value, l.heat.value;
      && s.layer.heat.Some?
      && s.layer.heat.value == h.(width := v.size.x, height := v.size.y)
      && |s.effects| >= 4
      && s.effects[0] == SetPosition(v.topLeft)
      && (SetWidth(v.size.x) in s.effects <==> h.width != v.size.x)
      && (SetHeight(v.size.y) in s.effects <==> h.height != v.size.y)
      && !s.layer.framePending
      && s.layer.points == l.points && s.layer.view == l.view && s.layer.options == l.options
    ensures var v, h := l.view.value, l.heat.value;
      var p := RedrawPass(h.r, v.pane, v.size, Project(proj, l.points));
      && s.effects == [SetPosition(v.topLeft)] + Resize(h, v.size)
           + [HeatMax(p.max), HeatData(p.samples), HeatDraw(l.options.minOpacity)]
      && s.layer.max == p.max
  {
    var v, h := l.view.value, l.heat.value;
    var l1 := l.(heat := Some(h.(width := v.size.x, height := v.size.y)));
    var r := FrameRedraw(l1, proj);
    var fx := [SetPosition(v.topLeft)] + Resize(h, v.size);
    assert !Painting(SetWidth(v.size.x)) && !Painting(SetHeight(v.size.y));
    Step(r.layer, fx + r.effects)
  }

  /** The canvas resizes a reset makes: each dimension is written only when it
      differs from what the painter was last told. */
  function Resize(h: Painter, size: Size): (fx: seq<Effect>)
    ensures SetWidth(size.x) in fx <==> h.width != size.x
    ensures SetHeight(size.y) in fx <==> h.height != size.y
    ensures forall e :: e in fx ==> e == SetWidth(size.x) || e == SetHeight(size.y)
  {
    (if h.width != size.x then [SetWidth(size.x)] else [])
      + (if h.height != size.y then [SetHeight(size.y)] else [])
  }

  /** A second reset with the map unchanged resizes nothing: it only moves the
      canvas and repeats the first reset's redraw. */
  lemma ResetSettles(l: Layer, proj: LatLng -> Pt)
    requires Sound(l) && l.view.Some?
    ensures var s := Reset(l, proj); var s2 := Reset(s.layer, proj);
      && s2.effects[0] == SetPosition(l.view.value.topLeft)
      && |s2.effects| == 4
      && s2.effects[1..] == s.effects[|s.effects| - 3..]
      && s2.layer.heat == s.layer.heat
  {
  }

  // ---------------------------------------------------------------------------
  // The invariant

  /** Every operation keeps the layer sound, given positive weights for the
      points it brings in and a positive radius set by the painter. */
  lemma {:induction false} OperationsStaySound(l: Layer, pts: seq<HeatPoint>, p: HeatPoint, o: Options, r': real, proj: LatLng -> Pt)
    requires Sound(l)
    ensures Sound(Redraw(l).layer)
    ensures Weighted(pts) ==> Sound(SetLatLngs(l, pts).layer)
    ensures p.w > 0.0 ==> Sound(AddLatLng(l, p).layer)
    ensures r' > 0.0 ==> Sound(SetOptions(l, o, r').layer)
    ensures Sound(FrameRedraw(l, proj).layer)
    ensures l.view.Some? ==> Sound(Reset(l, proj).layer)
  {
    var s := AddLatLng(l, p);
    assert forall i :: 0 <= i < |l.points| ==> s.layer.points[i] == l.points[i];
  }
}

=== FILE: sweep.dfy ===
/** The emission half of a redraw pass: the grid is swept row by row, column by
    column, from index 0 up to each JavaScript array's `length`, and every cell
    whose seed lies in the visibility box yields one rounded sample. */
module Sweep {
  import opened JsNum
  import opened Geometry
  import opened Grid

  /** One entry of the data list handed to the painter: rounded pixel position
      and weight. */
  datatype Sample = Sample(x: int, y: int, w: real)

  /** Cell `k` is emitted: it exists, both its indices are non-negative, and
      its seed (not its centroid) lies in the box. */
  ghost predicate Emits(g: Grid, box: Box, k: Key) {
    k in g.cells && 0 <= k.row && 0 <= k.col && box.Contains(g.cells[k].seed)
  }

  /** Row-major order of the nested loops. */
  predicate Before(a: Key, b: Key) {
    a.row < b.row || (a.row == b.row && a.col < b.col)
  }

  ghost predicate RowMajor(ks: seq<Key>) {
    forall i, j :: 0 <= i < j < |ks| ==> Before(ks[i], ks[j])
  }

  /** The inner loop over row `i`, from column `j` up to the row's `length`. */
  function SweepRow(g: Grid, box: Box, i: int, j: nat, len: nat): (ks: seq<Key>)
    ensures forall k: Key :: k in ks ==> k.row == i && j <= k.col < len && k in g.cells && box.Contains(g.cells[k].seed)
    ensures forall c :: j <= c < len && Key(i, c) in g.cells && box.Contains(g.cells[Key(i, c)].seed) ==> Key(i, c) in ks
    ensures RowMajor(ks)
    decreases len - j
  {
    if len <= j then []
    else
      var here := if Key(i, j) in g.cells && box.Contains(g.cells[Key(i, j)].seed) then [Key(i, j)] else [];
      here + SweepRow(g, box, i, j + 1, len)
  }

  /** The outer loop, from row `i` up to the outer array's `length`; a row no
      cell was created in is a hole and is skipped. */
  function SweepRows(g: Grid, l: Layout, box: Box, i: nat): (ks: seq<Key>)
    ensures forall k: Key :: k in ks ==>
      && i <= k.row < l.rows && k.row in l.cols && k.col < l.cols[k.row] && Emits(g, box, k)
    ensures forall k: Key :: i <= k.row && Covers(l, k) && Emits(g, box, k) ==> k in ks
    ensures RowMajor(ks)
    decreases l.rows - i
  {
    if l.rows <= i then []
    else
      var row := if i in l.cols then SweepRow(g, box, i, 0, l.cols[i]) else [];
      row + SweepRows(g, l, box, i + 1)
  }

  /** The cells the sweep emits, in the order it emits them; when the array
      lengths reach every cell, exactly the cells with non-negative indices
      whose seed is in the box. */
  function Swept(g: Grid, l: Layout, box: Box): (ks: seq<Key>)
    ensures forall k: Key :: k in ks ==> Emits(g, box, k)
    ensures Shaped(g, l) ==> forall k: Key :: Emits(g, box, k) ==> k in ks
    ensures RowMajor(ks)
  {
    SweepRows(g, l, box, 0)
  }

  /** A sequence without repeats, drawn from `s`, is no longer than `s` is big. */
  lemma {:induction false} DistinctWithin<T>(xs: seq<T>, s: set<T>)
    requires forall i, j :: 0 <= i < j < |xs| ==> xs[i] != xs[j]
    requires forall x :: x in xs ==> x in s
    ensures |xs| <= |s|
    decreases |xs|
  {
    if |xs| > 0 {
      var last := xs[|xs| - 1];
      var init := xs[..|xs| - 1];
      assert last !in init by {
        forall i | 0 <= i < |init|
          ensures init[i] != last
        {
          assert xs[i] == init[i];
        }
      }
      DistinctWithin(init, s - {last});
    }
  }

  /** At most one sample per cell: the sweep emits no more cells than the grid
      has. */
  lemma SweptAtMostCells(g: Grid, l: Layout, box: Box)
    ensures |Swept(g, l, box)| <= |g.cells|
  {
    EmittedAtMost(Swept(g, l, box), g.cells.Keys);
  }

  /** A sweep emits each cell at most once, so no more cells than any set
      holding all it emits. */
  lemma {:induction false} EmittedAtMost(ks: seq<Key>, s: set<Key>)
    requires RowMajor(ks)
    requires forall k :: k in ks ==> k in s
    ensures |ks| <= |s|
  {
    assert forall i, j :: 0 <= i < j < |ks| ==> Before(ks[i], ks[j]);
    DistinctWithin(ks, s);
  }

  /** A sweep that emits only cell `k`, and emits it, emits it once. */
  lemma {:induction false} EmittedOnce(ks: seq<Key>, k: Key)
    requires RowMajor(ks) && k in ks
    requires forall k' :: k' in ks ==> k' == k
    ensures ks == [k]
  {
    EmittedAtMost(ks, {k});
    assert ks[0] in ks;
  }

  /** The sample a cell yields: its centroid rounded half up, and its weight
      capped at the pass maximum. */
  function SampleOf(c: Cell, max: real): (s: Sample)
    ensures c.x - 0.5 < s.x as real <= c.x + 0.5
    ensures c.y - 0.5 < s.y as real <= c.y + 0.5
    ensures s.w <= c.w && s.w <= max && (s.w == c.w || s.w == max)
  {
    Sample(Round(c.x), Round(c.y), Min(c.w, max))
  }

  /** The data list: one sample per emitted cell, in sweep order. */
  function Samples(g: Grid, ks: seq<Key>): (data: seq<Sample>)
    requires forall k :: k in ks ==> k in g.cells
    ensures |data| == |ks|
    ensures forall i :: 0 <= i < |ks| ==> data[i] == SampleOf(g.cells[ks[i]], g.max)
  {
    seq(|ks|, i requires 0 <= i < |ks| => SampleOf(g.cells[ks[i]], g.max))
  }
}
